=== FILE: README.md ===
# Structure editor data layer, in Dafny

This is a model of the data layer of a browser-based 3D structural editor. The
user places nodes, joins them with beams and applies forces. The model covers
five pieces:

- **The structure store** (`Structure`). It holds an id-to-node map and an
  id-to-beam map, an action log with a redo stack, and the entry-list
  snapshot written to local storage.
- **The snapshot history** (`History`). It is a linear stack of snapshots
  with a cursor.
- **The import schema** (`Validation`). It decides which parsed JSON
  documents count as structure files, and what typed records they parse to.
- **Import and export** (`StructureIO`).
- **Two small pieces.** One is the force-colour scale (`Forces`). The other
  is the two-click beam-creation state machine (`BeamCreation`).

Shared modules:

- `StructureTypes` holds the records: nodes, beams, loads, materials.
- `OrderedMaps` models the JavaScript `Map`: a mapping plus the insertion
  order that `entries()` enumerates and `new Map(entries)` rebuilds.
- `JsonValues` models parsed JSON values.
- `RecordJson` gives the JSON form of each record.

Every operation is a pure function from the state before to the state after.
An operation that can throw returns `Outcome`. That type carries the state the
operation leaves behind even when it throws, because `addBeam` logs its action
before it validates.

Some inputs are parameters: the fresh id `crypto.randomUUID()` would return,
the value `JSON.parse` produced, and the blob read from local storage.

Numbers are mathematical reals.

## Behaviour kept as the code has it

Some behaviour in the code looks unfinished. The model keeps it as written:

- `undo` and `redo` only move log entries between the two stacks. In both,
  the branches for `ADD_NODE` and `ADD_BEAM` hold nothing but comments: the
  node or beam should be removed (src/stores/structure.ts:56-61) and re-added
  (src/stores/structure.ts:72-77). The maps are left as they are
  (`Structure.UndoKeepsAddedNode`).
- The action log has no cap. `Structure.AddNodesKeys` shows that it grows by
  one entry per call.
- `addNode` returns no id.
- A failing `addBeam` is not free of effects. It has already appended its
  action to the log and emptied the redo stack.
- `canUndo` tests whether the cursor is above 0, and `canRedo` whether it is
  below the last index of the stack (src/stores/historyStore.ts:12-13). So
  undo can return to the first snapshot but never moves the cursor below it
  (`History.FirstSnapshotIsFloor`).

## Model

| member | source | states |
|---|---|---|
| OrderedMaps.Set | src/stores/structure.ts:23-28 | `Map.set` binds the key, leaves every other key's value alone, keeps an existing key in its place and puts a new key last |
| OrderedMaps.FromEntries | src/stores/structure.ts:96-97 | `new Map(entries)` holds exactly the listed keys, each with the value of its last pair |
| OrderedMaps.Entries | src/stores/structure.ts:104-105 | `Array.from(map.entries())` has one pair per key in the insertion order; `EntriesKeySeq` and `EntriesValues` state which keys and values the pairs carry |
| OrderedMaps.FromEntriesOrder | src/stores/structure.ts:96-97 | pairs with distinct keys are rebuilt in the order they are listed |
| OrderedMaps.EntriesValues | src/stores/structure.ts:104-105 | the entry list of a map carries exactly its keys, each with its own value |
| OrderedMaps.EntriesKeySeq | src/stores/structure.ts:104-105 | the entry list enumerates the keys in insertion order |
| OrderedMaps.FromEntriesOfEntries | src/stores/structure.ts:92-108 | rebuilding a map from its own entry list gives back the same map, order included |
| OrderedMaps.OrderedSize | src/stores/structure.ts:7-8 | a map's size is the number of keys in its insertion order |
| OrderedMaps.KeysOfSize | src/services/io.service.ts:21-22 | a map built from a list has at most as many keys as the list has pairs |
| OrderedMaps.LastValueIsLast | src/services/io.service.ts:21-22 | a pair that no later pair overrides supplies its key's value |
| Structure.EmptyStore | src/stores/structure.ts:5-8 | the store starts with an empty log, redo stack and maps |
| Structure.Init | src/stores/structure.ts:10-13 | construction starts with an empty log and redo stack; with no saved blob it is the empty store, otherwise its maps hold exactly the keys the blob lists, each with the value of its last pair |
| Structure.AddNode | src/stores/structure.ts:19-29 | logs `ADD_NODE` with the position and empties the redo stack; binds the id to an unconstrained node with no loads at that position; other nodes and all beams are unchanged; with a fresh id the node count grows by one; existing nodes keep their order and a fresh id goes last |
| Structure.AddBeam | src/stores/structure.ts:32-49 | logs `ADD_BEAM` and empties the redo stack whether or not it throws; returns exactly when both endpoints exist (no self-loop check); otherwise it throws "invalid start" before "invalid end" with the beams unchanged; on success it binds the id to a beam with those endpoints and the default steel material, leaving every other beam and all nodes unchanged; existing beams keep their order and a fresh id goes last |
| Structure.Undo | src/stores/structure.ts:52-65 | moves the last log entry to the top of the redo stack and is a no-op on an empty log; the maps are untouched and the total number of stacked entries is kept |
| Structure.Redo | src/stores/structure.ts:68-81 | the mirror of `Undo`: moves the top redo entry back to the end of the log |
| Structure.UndoThenRedo | src/stores/structure.ts:52-81 | undo followed by redo restores both stacks exactly |
| Structure.RedoThenUndo | src/stores/structure.ts:52-81 | redo followed by undo restores both stacks exactly |
| Structure.UndoKeepsAddedNode | src/stores/structure.ts:56-58 | undoing `addNode` restores the log but leaves the added node in the map |
| Structure.ApplyForce | src/stores/structure.ts:83-89 | throws and changes nothing when the node is missing; otherwise it appends one load with the force and a zero moment to that node only; the log, the redo stack, the beams and the key order are untouched |
| Structure.Save | src/stores/structure.ts:101-108 | writes one `[id, record]` pair per map entry, in insertion order, each pair agreeing with the map |
| Structure.LoadInitialState | src/stores/structure.ts:92-99 | with no blob the store is unchanged; otherwise the maps hold exactly the keys the blob lists, each with the value of its last pair; the log is untouched |
| Structure.SaveLoadRoundTrip | src/stores/structure.ts:92-108 | loading what `save` wrote gives back the same nodes and beams in the same order, whatever the store loaded into |
| Structure.AddNodePreservesInvariants | src/stores/structure.ts:19-29 | `addNode` keeps every record under its own id and every beam endpoint resolving |
| Structure.AddBeamPreservesInvariants | src/stores/structure.ts:32-49 | `addBeam`, thrown or not, keeps every record under its own id and every beam endpoint resolving |
| Structure.ApplyForcePreservesInvariants | src/stores/structure.ts:83-89 | `applyForce` keeps both invariants |
| Structure.AddNodesKeys | src/stores/structure.ts:19-29 | a run of `addNode` calls adds exactly the call ids as keys and one log entry per call, with no cap |
| Structure.AddNodesCount | src/stores/structure.ts:19-29 | a run of `addNode` calls with fresh, distinct ids adds one node per call |
| History.Fresh | src/stores/historyStore.ts:5-6 | a new history has an empty stack and satisfies the cursor invariant |
| History.CursorSplitsStack | src/stores/historyStore.ts:12-13 | `canUndo` holds exactly when some snapshot lies before the cursor and `canRedo` exactly when one lies after it; the cursor splits a non-empty stack into those earlier snapshots, the current one and the later ones |
| History.PushSnapshot | src/stores/historyStore.ts:15-19 | keeps the snapshots up to the cursor unchanged and appends the new one last; the cursor lands on it, so nothing is left to redo; the invariant is kept |
| History.Undo | src/stores/historyStore.ts:21-26 | returns a snapshot exactly when `canUndo` holds (the cursor is above 0); in that case it moves the cursor back and returns the snapshot now under it; otherwise it changes nothing; the stack is never modified |
| History.Redo | src/stores/historyStore.ts:28-33 | returns a snapshot exactly when `canRedo` holds (the cursor is below the last index); in that case it moves the cursor forward and returns the snapshot now under it; otherwise it changes nothing; the stack is never modified |
| History.RedoAfterUndo | src/stores/historyStore.ts:21-33 | a redo after a successful undo restores the cursor and returns the snapshot that was current before |
| History.UndoAfterRedo | src/stores/historyStore.ts:21-33 | an undo after a successful redo restores the cursor and returns the snapshot that was current before |
| History.FirstSnapshotIsFloor | src/stores/historyStore.ts:12-19 | after one push on a fresh history the cursor is 0, so neither undo nor redo is possible |
| History.Run | src/stores/historyStore.ts:5-33 | any sequence of pushes, undos and redos from a fresh history keeps the cursor invariant |
| Validation.SafeParse | src/utils/validation.ts:7-36 | a document parses exactly when the schema accepts it; the parsed lists have the document's lengths; every node id is a UUID; every beam has UUID ids and endpoints and a strictly positive material; each parsed record agrees with its document item field by field: id, position, constraints, every load, endpoints and every material number |
| Validation.IsStructureDocument | src/utils/validation.ts:7-36 | `StructureSchema`: an object whose `nodes` is a list of node records and whose `beams` is a list of beam records; `Validation.PairIsNoRecord` and `Validation.DanglingAndDuplicateIdsAccepted` show what it rejects and what it lets through |
| Validation.IsVector3 | src/utils/validation.ts:3-5 | a tuple of three numbers; `Validation.Vector3SchemaIsExact` shows it accepts exactly the JSON form of a vector |
| Validation.IsUuid | src/utils/validation.ts:9 | `z.string().uuid()`: hexadecimal digits grouped 8-4-4-4-12 by hyphens; `Validation.SampleIdsAreUuids` checks it on samples |
| Validation.DecodeNodeAgrees | src/utils/validation.ts:8-21 | an accepted node item parses to a node agreeing with it on id, position, constraints and every load |
| Validation.DecodeBeamAgrees | src/utils/validation.ts:22-35 | an accepted beam item parses to a beam agreeing with it on its three ids and every material number |
| Validation.NodeAgreementIsUnique | src/utils/validation.ts:8-21 | at most one node agrees with a given item, so agreement pins the parsed node down completely |
| Validation.BeamAgreementIsUnique | src/utils/validation.ts:22-35 | at most one beam agrees with a given item |
| Validation.Vector3SchemaIsExact | src/utils/validation.ts:3-5 | the vector schema accepts exactly the three-number arrays |
| Validation.LoadsRoundTrip | src/utils/validation.ts:17-20 | any list of loads, empty included, is accepted and parses back to itself |
| Validation.NodeRecordRoundTrip | src/utils/validation.ts:8-21 | a node's JSON form is accepted exactly when its id is a UUID, and then it parses back to the same node |
| Validation.BeamRecordRoundTrip | src/utils/validation.ts:22-35 | a beam's JSON form is accepted exactly when its three ids are UUIDs and its five material numbers are strictly positive, and then it parses back to the same beam |
| Validation.PairIsNoRecord | src/utils/validation.ts:8-9 | an array element in the node list, such as an `[id, record]` pair, rejects the whole document |
| Validation.SampleIdsAreUuids | src/utils/validation.ts:9 | a canonical UUID is accepted; the empty string and a UUID with a non-hex digit are not |
| Validation.DanglingAndDuplicateIdsAccepted | src/utils/validation.ts:7-36 | a document with two nodes sharing an id, and a beam ending at an id no node has, passes the schema |
| StructureIO.RecordMap | src/services/io.service.ts:21-22 | the map `new Map(list.map(r => [r.id, r]))` builds holds every listed id and no other key, each key holding a listed record with that id, the last one when the id repeats; its size is at most the list length |
| StructureIO.KeyedBy | src/services/io.service.ts:21-22 | `list.map(r => [r.id, r])` pairs each record with its own id, position by position |
| StructureIO.LastValueKeyedById | src/services/io.service.ts:21-22 | in a list keyed by record ids, the record a key ends up with is a listed record carrying that id |
| StructureIO.Import | src/services/io.service.ts:12-23 | throws, changing nothing, on unparsable text (`MalformedJson`) or a rejected document (`InvalidStructureFile`); returns exactly when the document is accepted; the maps are then the parsed node and beam lists keyed by their ids, so they hold only UUID-keyed records under their own ids, beams with positive materials, no more entries than listed; the log and redo stack are never touched |
| StructureIO.ImportInstallsListedNode | src/services/io.service.ts:21 | after an accepted import every node item's id is a key, and an item no later item overrides is installed agreeing with it field by field |
| StructureIO.ImportInstallsListedBeam | src/services/io.service.ts:22 | the same for beam items |
| StructureIO.ImportReplacesWholesale | src/services/io.service.ts:21-22 | what a successful import installs depends on the document alone, not on the maps it replaces |
| StructureIO.Export | src/services/io.service.ts:5-10 | export is an object with exactly `nodes` and `beams`, listing every entry once in map order as a two-element `[id, record]` array, the layout `save` writes (`StructureIO.ExportIsSaveLayout`) |
| StructureIO.ExportIsSaveLayout | src/services/io.service.ts:5-10 | export lists, item for item, the `[id, record]` pairs `save` writes to local storage (src/stores/structure.ts:101-108) |
| StructureIO.ExportPassesSchemaOnlyWhenEmpty | src/services/io.service.ts:5-10 | the schema accepts export's output exactly when both maps are empty |
| StructureIO.ImportOfExport | src/services/io.service.ts:5-23 | as written, importing the export gives the store back when both maps are empty and otherwise throws `InvalidStructureFile`, changing nothing |
| StructureIO.ExportRecords | src/services/io.service.ts:5-10 | the corrected export lists every record object once, in map order, under `nodes` and `beams` |
| StructureIO.ExportRecordsAccepted | src/services/io.service.ts:5-23 | the schema accepts the corrected export exactly when every id is a UUID and every material strictly positive |
| StructureIO.KeyedValuesAreEntries | src/services/io.service.ts:21-22 | when every record sits under its own id, keying the records by id rebuilds the map's entry list |
| StructureIO.ExportRecordsRoundTrip | src/services/io.service.ts:5-23 | with records written as objects, import of the export gives back the same store, order included, whenever the records sit under their own ids and conform to the schema |
| Forces.Abs | src/stores/forceStore.ts:18 | `Math.abs` is non-negative and equals the value or its negation |
| Forces.MaxOf | src/stores/forceStore.ts:19 | `Math.max(floor, ...xs)` bounds the floor and every element from above and is one of them |
| Forces.MinOf | src/stores/forceStore.ts:20 | `Math.min(floor, ...xs)` bounds the floor and every element from below and is one of them |
| Forces.AbsAll | src/stores/forceStore.ts:18 | the magnitudes are the forces' absolute values, position by position |
| Forces.UpdateScale | src/stores/forceStore.ts:17-22 | bounds are at least 1000 / at most -1000 / at least 1000; they cover every recorded magnitude, force and force respectively; each is attained by its floor or a recorded value; the forces are untouched |
| Forces.AddForce | src/stores/forceStore.ts:24-26 | appends exactly the force, keeps earlier entries in order, and leaves the scale alone |
| Forces.InitialIsScaled | src/stores/forceStore.ts:4-22 | with no forces the scale is the initial 1000 / -1000 / 1000 |
| Forces.MaxAbsIsOuterBound | src/stores/forceStore.ts:17-22 | the largest magnitude is the larger of `maxForce` and `-minForce` |
| Forces.RescaleAfterAdd | src/stores/forceStore.ts:17-26 | rescaling after adding a force widens the previous scale just enough to cover it |
| Forces.UpdateScaleIdempotent | src/stores/forceStore.ts:17-22 | rescaling twice gives the same scale as rescaling once |
| BeamCreation.HandleNodeClick | src/hooks/useBeamCreation.ts:7-17 | with no pending start (none or the empty id) the click records the node and leaves the store; clicking the pending node clears it; clicking another node makes exactly one `addBeam(start, node)` call; pending is cleared when that call returns and kept when it throws |
| BeamCreation.ClickKeepsNoSelfLoops | src/hooks/useBeamCreation.ts:12-13 | a click never adds a beam whose endpoints are equal |
| BeamCreation.ClicksKeepNoSelfLoops | src/hooks/useBeamCreation.ts:7-17 | any sequence of clicks keeps a self-loop-free structure free of self-loops |
| BeamCreation.TwoClicksAddBeam | src/hooks/useBeamCreation.ts:7-17 | two clicks on distinct existing nodes add one beam from the first to the second and leave nothing pending |

## Left out

- Rendering is not modelled: the React and three.js components, the shaders,
  screen-to-world raycasting and the performance monitor. None of them holds
  data-layer logic.
- MobX is not modelled: neither `makeAutoObservable` nor the `reaction` that
  calls `updateScale` when the forces change. `Forces.UpdateScale` is a
  separate operation. Whether the reaction fires after an in-place `push` is
  library behaviour.
- `localStorage` is not modelled. `Structure.LoadInitialState` takes the
  parsed blob, or `None` when nothing non-empty is stored. Two paths are not
  modelled: a stored text that does not parse makes the constructor throw,
  and a blob without entry lists yields empty maps or a throw, depending on
  what the fields hold.
- `JSON.parse` and `JSON.stringify` are not modelled. `StructureIO.Import`
  takes the parsed value, or `None` when parsing threw. `StructureIO.Export`
  yields the JSON value before stringification. `StructureIO.ImportOfExport`
  and `StructureIO.ExportRecordsRoundTrip` hand that value straight to
  `StructureIO.Import`, and `Structure.SaveLoadRoundTrip` hands what
  `Structure.Save` writes straight to `Structure.LoadInitialState` (the
  stringify and parse at src/stores/structure.ts:103 and 95), so they take `JSON.parse(JSON.stringify(v))` to give
  back `v`. That holds for the values export builds, which hold only finite
  numbers, strings, booleans, arrays and objects.
- Error text is not modelled. Errors are enumerated, so the joined zod issue
  messages in the import error are dropped.
- `crypto.randomUUID` is a parameter. Nothing requires the id to be fresh:
  contracts that need freshness say so, and a colliding id overwrites.
- Numbers are reals: there is no NaN, no infinity and no rounding.
- The optional `results` field of a beam is not modelled. Nothing in the data
  layer writes it, and import strips unknown keys.
- Validation.IsUuid checks the hexadecimal 8-4-4-4-12 layout. It does not
  check version or variant digits, which some zod versions also require.
- `Math.max`/`Math.min` over a spread argument list can exceed the engine's
  argument limit for very long force lists. That is not modelled.
- History.PushSnapshot: requires the cursor invariant, though the source's
  public fields could be set to break it. `History.Run` shows the invariant
  holds for every command sequence from a fresh history.
- History.Undo: requires the cursor invariant (see `History.PushSnapshot`).
- History.Redo: requires the cursor invariant (see `History.PushSnapshot`).
- The snapshot type of the history is a type parameter. The type the history
  imports is not declared in the record definitions.
- React state updates in the beam-creation hook are modelled as immediate.
  The hook's returned `beamStart` is the `Editor` field.

## Findings

| source | as written | input that shows it | evidently intended | confidence | as-written member | corrected member |
|---|---|---|---|---|---|---|
| src/services/io.service.ts:5-10 | export writes each map as a list of `[id, record]` pairs, but the import schema requires lists of record objects (src/utils/validation.ts:8, 22) | a store holding one node with a UUID id: its export is rejected by import as an invalid structure file | import of an export restores the store: either export writes the records themselves, or the schema accepts the `[id, record]` pairs that both export and `save` write (src/stores/structure.ts:104-105) | not executed | StructureIO.ImportOfExport | StructureIO.ExportRecordsRoundTrip |

=== FILE: beam_creation.dfy ===
/**
 Creating a beam with two clicks: the first click on a node marks it as the
 pending start, the second click on a different node adds a beam between the
 two. Clicking the pending node again cancels.
 */
module BeamCreation {
  import opened StructureTypes
  import opened Structure

  /** The pending start (`beamStart`) and the structure store it acts on. */
  datatype Editor = Editor(beamStart: Option<string>, store: Store)

  /** `!beamStart` is false only for a non-empty string: an empty id counts as no pending start. */
  predicate HasPendingStart(beamStart: Option<string>) {
    beamStart.Some? && beamStart.value != ""
  }

  /**
   `handleNodeClick`: with no pending start, the clicked node becomes it and
   the store is untouched. With a pending start, clicking the same node only
   clears it; clicking another node calls `addBeam(start, node)` once. When
   that call throws, the pending start stays in place, and the store keeps
   what `addBeam` did before it threw.
   */
  function HandleNodeClick(e: Editor, nodeId: string, newId: string): (r: Outcome<Editor>)
    ensures !HasPendingStart(e.beamStart) ==>
              r.Returned? && r.state.beamStart == Some(nodeId) && r.state.store == e.store
    ensures HasPendingStart(e.beamStart) && nodeId == e.beamStart.value ==>
              r.Returned? && r.state.beamStart.None? && r.state.store == e.store
    ensures HasPendingStart(e.beamStart) && nodeId != e.beamStart.value ==>
              var call := AddBeam(e.store, e.beamStart.value, nodeId, newId);
              && r.state.store == call.state
              && r.state.store.actionHistory == e.store.actionHistory + [AddBeamAction(e.beamStart.value, nodeId)]
              && (r.Returned? <==> call.Returned?)
              && (r.Returned? ==> r.state.beamStart.None?)
              && (r.Threw? ==> r.state.beamStart == e.beamStart && r.error == call.error)
  {
    if !HasPendingStart(e.beamStart) then
      Returned(Editor(Some(nodeId), e.store))
    else
      var start := e.beamStart.value;
      if nodeId == start then
        Returned(Editor(None, e.store))
      else
        match AddBeam(e.store, start, nodeId, newId)
        case Returned(st) => Returned(Editor(None, st))
        case Threw(st, err) => Threw(Editor(e.beamStart, st), err)
  }

  /** No beam starts and ends at the same node. */
  predicate NoSelfLoops(s: Store) {
    forall k | k in s.beams.entries :: s.beams.entries[k].startNodeId != s.beams.entries[k].endNodeId
  }

  /**
   A click never creates a beam from a node to itself, so clicks alone keep
   a structure free of self-loops.
   */
  lemma ClickKeepsNoSelfLoops(e: Editor, nodeId: string, newId: string)
    requires NoSelfLoops(e.store)
    ensures NoSelfLoops(HandleNodeClick(e, nodeId, newId).state.store)
  {
  }

  /** Clicks applied one after another; a throwing click leaves its state for the next. */
  function Clicks(e: Editor, clicks: seq<(string, string)>): (r: Editor)
    decreases |clicks|
  {
    if |clicks| == 0 then e
    else
      var last := clicks[|clicks| - 1];
      HandleNodeClick(Clicks(e, clicks[..|clicks| - 1]), last.0, last.1).state
  }

  /** However many clicks, no self-loop appears. */
  lemma {:induction false} ClicksKeepNoSelfLoops(e: Editor, clicks: seq<(string, string)>)
    requires NoSelfLoops(e.store)
    ensures NoSelfLoops(Clicks(e, clicks).store)
    decreases |clicks|
  {
    if |clicks| > 0 {
      var last := clicks[|clicks| - 1];
      ClicksKeepNoSelfLoops(e, clicks[..|clicks| - 1]);
      ClickKeepsNoSelfLoops(Clicks(e, clicks[..|clicks| - 1]), last.0, last.1);
    }
  }

  /** Two clicks on distinct existing nodes, from an idle editor, add one beam between them. */
  lemma TwoClicksAddBeam(e: Editor, a: string, b: string, id1: string, id2: string)
    requires !HasPendingStart(e.beamStart)
    requires a != "" && a != b
    requires a in e.store.nodes.entries && b in e.store.nodes.entries
    ensures var r := HandleNodeClick(HandleNodeClick(e, a, id1).state, b, id2);
            && r.Returned? && r.state.beamStart.None?
            && id2 in r.state.store.beams.entries
            && r.state.store.beams.entries[id2].startNodeId == a
            && r.state.store.beams.entries[id2].endNodeId == b
  {
  }
}

=== FILE: force_store.dfy ===
/**
 The force store: the magnitudes of the forces applied so far, and the colour
 scale the viewer derives from them. The scale always spans at least
 -1000 .. 1000 and widens to cover every recorded force.
 */
module Forces {

  datatype ForceStore = ForceStore(maxAbsForce: real, minForce: real, maxForce: real, forces: seq<real>)

  /** The half-width the scale never shrinks below. */
  const ScaleFloor: real := 1000.0

  /** The store as constructed: the floor scale and no forces. */
  const Initial: ForceStore := ForceStore(ScaleFloor, -ScaleFloor, ScaleFloor, [])

  /** `Math.abs` */
  function Abs(x: real): (r: real)
    ensures r >= 0.0 && (r == x || r == -x)
  {
    if x < 0.0 then -x else x
  }

  /** `Math.max(floor, ...xs)`: the largest of `floor` and the elements of `xs`. */
  function MaxOf(floor: real, xs: seq<real>): (r: real)
    ensures r >= floor && forall i | 0 <= i < |xs| :: r >= xs[i]
    ensures r == floor || exists i | 0 <= i < |xs| :: r == xs[i]
    decreases |xs|
  {
    if |xs| == 0 then
      floor
    else
      var init := xs[..|xs| - 1];
      var m := MaxOf(floor, init);
      assert forall i | 0 <= i < |init| :: init[i] == xs[i];
      if xs[|xs| - 1] > m then xs[|xs| - 1] else m
  }

  /** `Math.min(floor, ...xs)`: the smallest of `floor` and the elements of `xs`. */
  function MinOf(floor: real, xs: seq<real>): (r: real)
    ensures r <= floor && forall i | 0 <= i < |xs| :: r <= xs[i]
    ensures r == floor || exists i | 0 <= i < |xs| :: r == xs[i]
    decreases |xs|
  {
    if |xs| == 0 then
      floor
    else
      var init := xs[..|xs| - 1];
      var m := MinOf(floor, init);
      assert forall i | 0 <= i < |init| :: init[i] == xs[i];
      if xs[|xs| - 1] < m then xs[|xs| - 1] else m
  }

  /** `forces.map(Math.abs)` */
  function AbsAll(xs: seq<real>): (ys: seq<real>)
    ensures |ys| == |xs| && forall i | 0 <= i < |xs| :: ys[i] == Abs(xs[i])
  {
    seq(|xs|, i requires 0 <= i < |xs| => Abs(xs[i]))
  }

  /**
   `updateScale`: recomputes the three bounds from the recorded forces. Each
   bound is the floor or one of the forces (or magnitudes), whichever is more
   extreme; the forces themselves are untouched.
   */
  function UpdateScale(s: ForceStore): (r: ForceStore)
    ensures r.forces == s.forces
    ensures r.maxAbsForce >= ScaleFloor && forall i | 0 <= i < |s.forces| :: r.maxAbsForce >= Abs(s.forces[i])
    ensures r.maxAbsForce == ScaleFloor || exists i | 0 <= i < |s.forces| :: r.maxAbsForce == Abs(s.forces[i])
    ensures r.minForce <= -ScaleFloor && forall i | 0 <= i < |s.forces| :: r.minForce <= s.forces[i]
    ensures r.minForce == -ScaleFloor || exists i | 0 <= i < |s.forces| :: r.minForce == s.forces[i]
    ensures r.maxForce >= ScaleFloor && forall i | 0 <= i < |s.forces| :: r.maxForce >= s.forces[i]
    ensures r.maxForce == ScaleFloor || exists i | 0 <= i < |s.forces| :: r.maxForce == s.forces[i]
  {
    var abs := AbsAll(s.forces);
    ForceStore(MaxOf(ScaleFloor, abs), MinOf(-ScaleFloor, s.forces), MaxOf(ScaleFloor, s.forces), s.forces)
  }

  /** `addForce`: records one more force; the scale is left as it was. */
  function AddForce(s: ForceStore, force: real): (r: ForceStore)
    ensures |r.forces| == |s.forces| + 1 && r.forces[|s.forces|] == force
    ensures r.forces[..|s.forces|] == s.forces
    ensures r.maxAbsForce == s.maxAbsForce && r.minForce == s.minForce && r.maxForce == s.maxForce
  {
    s.(forces := s.forces + [force])
  }

  /** The scale of the empty store is the floor scale. */
  lemma InitialIsScaled()
    ensures UpdateScale(Initial) == Initial
  {
  }

  /** The largest magnitude is the larger of the two extremes' magnitudes. */
  lemma {:induction false} MaxAbsIsOuterBound(s: ForceStore)
    ensures var r := UpdateScale(s);
            r.maxAbsForce == if r.maxForce >= -r.minForce then r.maxForce else -r.minForce
  {
    var r := UpdateScale(s);
    var m := if r.maxForce >= -r.minForce then r.maxForce else -r.minForce;
    forall i | 0 <= i < |s.forces| ensures Abs(s.forces[i]) <= m {
    }
    if r.maxAbsForce != ScaleFloor {
      var i :| 0 <= i < |s.forces| && r.maxAbsForce == Abs(s.forces[i]);
    }
  }

  /**
   Recording a force and rescaling widens the previous scale just enough to
   cover the new force: the scale can be maintained incrementally.
   */
  lemma {:induction false} RescaleAfterAdd(s: ForceStore, force: real)
    ensures var before := UpdateScale(s);
            var after := UpdateScale(AddForce(s, force));
            && after.maxAbsForce == (if Abs(force) > before.maxAbsForce then Abs(force) else before.maxAbsForce)
            && after.minForce == (if force < before.minForce then force else before.minForce)
            && after.maxForce == (if force > before.maxForce then force else before.maxForce)
  {
    var xs := s.forces + [force];
    assert xs[..|xs| - 1] == s.forces;
    assert AbsAll(xs)[..|xs| - 1] == AbsAll(s.forces);
  }

  /** Rescaling twice changes nothing the first rescale did not. */
  lemma UpdateScaleIdempotent(s: ForceStore)
    ensures UpdateScale(UpdateScale(s)) == UpdateScale(s)
  {
  }
}

=== FILE: history_store.dfy ===
/**
 The snapshot history: a linear stack of snapshots and a cursor on the one
 currently shown. Undo and redo move the cursor; pushing a snapshot drops
 everything after the cursor first. A snapshot is opaque to the history.
 */
module History {
  import opened StructureTypes

  datatype HistoryStore<T> = HistoryStore(stack: seq<T>, currentIndex: int)

  /** The cursor is -1 exactly on an empty stack and otherwise names a snapshot. */
  predicate Valid<T>(h: HistoryStore<T>) {
    && -1 <= h.currentIndex <= |h.stack| - 1
    && (h.currentIndex == -1 <==> |h.stack| == 0)
  }

  /** The store as constructed. */
  function Fresh<T>(): (h: HistoryStore<T>)
    ensures Valid(h) && |h.stack| == 0
  {
    HistoryStore([], -1)
  }

  /** `canUndo`: there is a snapshot before the current one. */
  predicate CanUndo<T>(h: HistoryStore<T>) {
    h.currentIndex > 0
  }

  /** `canRedo`: there is a snapshot after the current one. */
  predicate CanRedo<T>(h: HistoryStore<T>) {
    h.currentIndex < |h.stack| - 1
  }

  /** The snapshots before the cursor. */
  function Earlier<T>(h: HistoryStore<T>): seq<T>
    requires Valid(h)
  {
    h.stack[..if h.currentIndex < 0 then 0 else h.currentIndex]
  }

  /** The snapshots after the cursor. */
  function Later<T>(h: HistoryStore<T>): seq<T>
    requires Valid(h)
  {
    h.stack[h.currentIndex + 1..]
  }

  /**
   The cursor splits a non-empty stack into the earlier snapshots, the
   current one and the later ones; `canUndo` holds exactly when there is an
   earlier snapshot and `canRedo` exactly when there is a later one.
   */
  lemma CursorSplitsStack<T>(h: HistoryStore<T>)
    requires Valid(h)
    ensures CanUndo(h) <==> |Earlier(h)| > 0
    ensures CanRedo(h) <==> |Later(h)| > 0
    ensures |h.stack| > 0 ==> Earlier(h) + [h.stack[h.currentIndex]] + Later(h) == h.stack
  {
    if |h.stack| > 0 {
      assert h.stack == h.stack[..h.currentIndex] + [h.stack[h.currentIndex]] + h.stack[h.currentIndex + 1..];
    }
  }

  /**
   `pushSnapshot`: keeps the snapshots up to the cursor, appends the new one
   and moves the cursor onto it, so nothing is left to redo.
   */
  function PushSnapshot<T>(h: HistoryStore<T>, snapshot: T): (r: HistoryStore<T>)
    requires Valid(h)
    ensures Valid(r)
    ensures |r.stack| == h.currentIndex + 2
    ensures r.stack[|r.stack| - 1] == snapshot
    ensures r.currentIndex == |r.stack| - 1 && !CanRedo(r)
    ensures forall i | 0 <= i <= h.currentIndex :: r.stack[i] == h.stack[i]
  {
    HistoryStore(h.stack[..h.currentIndex + 1] + [snapshot], h.currentIndex + 1)
  }

  /** The history after an undo or redo, and the snapshot it returned, if any. */
  datatype Step<T> = Step(history: HistoryStore<T>, snapshot: Option<T>)

  /**
   `undo`: when an earlier snapshot exists, moves the cursor back onto it and
   returns it; otherwise returns nothing and changes nothing. The stack is
   never modified.
   */
  function Undo<T>(h: HistoryStore<T>): (r: Step<T>)
    requires Valid(h)
    ensures Valid(r.history) && r.history.stack == h.stack
    ensures r.snapshot.Some? <==> CanUndo(h)
    ensures CanUndo(h) ==>
              && r.history.currentIndex == h.currentIndex - 1
              && r.snapshot.value == h.stack[r.history.currentIndex]
    ensures !CanUndo(h) ==> r.history == h
  {
    if CanUndo(h) then
      var i := h.currentIndex - 1;
      Step(h.(currentIndex := i), Some(h.stack[i]))
    else
      Step(h, None)
  }

  /** `redo`: the mirror of `undo`, moving the cursor forward. */
  function Redo<T>(h: HistoryStore<T>): (r: Step<T>)
    requires Valid(h)
    ensures Valid(r.history) && r.history.stack == h.stack
    ensures r.snapshot.Some? <==> CanRedo(h)
    ensures CanRedo(h) ==>
              && r.history.currentIndex == h.currentIndex + 1
              && r.snapshot.value == h.stack[r.history.currentIndex]
    ensures !CanRedo(h) ==> r.history == h
  {
    if CanRedo(h) then
      var i := h.currentIndex + 1;
      Step(h.(currentIndex := i), Some(h.stack[i]))
    else
      Step(h, None)
  }

  /**
   A redo right after a successful undo restores the cursor and returns the
   snapshot that was current before the undo.
   */
  lemma RedoAfterUndo<T>(h: HistoryStore<T>)
    requires Valid(h) && CanUndo(h)
    ensures Redo(Undo(h).history) == Step(h, Some(h.stack[h.currentIndex]))
  {
  }

  /** An undo right after a successful redo, symmetrically. */
  lemma UndoAfterRedo<T>(h: HistoryStore<T>)
    requires Valid(h) && CanRedo(h)
    ensures Undo(Redo(h).history) == Step(h, Some(h.stack[h.currentIndex]))
  {
  }

  /**
   The first snapshot pushed on a fresh store is the floor: the cursor is 0,
   and there is nothing to undo or redo.
   */
  lemma FirstSnapshotIsFloor<T>(snapshot: T)
    ensures PushSnapshot(Fresh(), snapshot).currentIndex == 0
    ensures !CanUndo(PushSnapshot(Fresh(), snapshot)) && !CanRedo(PushSnapshot(Fresh(), snapshot))
    ensures Undo(PushSnapshot(Fresh(), snapshot)).snapshot.None?
  {
  }

  /** The operations a caller can issue. */
  datatype Command<T> = Push(snapshot: T) | UndoCommand | RedoCommand

  function Apply<T>(h: HistoryStore<T>, c: Command<T>): HistoryStore<T>
    requires Valid(h)
  {
    match c
    case Push(snapshot) => PushSnapshot(h, snapshot)
    case UndoCommand => Undo(h).history
    case RedoCommand => Redo(h).history
  }

  /**
   Running any commands from a fresh store, left to right: the cursor never
   leaves the stack.
   */
  function Run<T>(cs: seq<Command<T>>): (h: HistoryStore<T>)
    ensures Valid(h)
    decreases |cs|
  {
    if |cs| == 0 then Fresh() else Apply(Run(cs[..|cs| - 1]), cs[|cs| - 1])
  }
}

=== FILE: io_service.dfy ===
/**
 Import and export of a structure file. `JSON.stringify` and `JSON.parse` are
 not modelled: export yields the JSON value that would be stringified, and
 import receives the value `JSON.parse` produced, or `None` when the text did
 not parse.
 */
module StructureIO {
  import opened StructureTypes
  import opened JsonValues
  import opened RecordJson
  import opened OrderedMaps
  import opened Validation
  import opened Structure

  /** A JSON list holding one item per entry of `m`, in insertion order. */
  ghost predicate ListsEntries<V>(list: Json, m: OMap<V>, item: (Key, V) -> Json) {
    && list.JArr?
    && |list.items| == |m.order|
    && forall i | 0 <= i < |m.order| :: list.items[i] == item(m.order[i], m.entries[m.order[i]])
  }

  function EncodeEntries<V>(m: OMap<V>, item: (Key, V) -> Json): Json {
    JArr(seq(|m.order|, i requires 0 <= i < |m.order| => item(m.order[i], m.entries[m.order[i]])))
  }

  /** What `Array.from(map.entries())` stringifies each entry to: `[id, record]`. */
  function NodePair(k: Key, n: Node): Json { JArr([JStr(k), EncodeNode(n)]) }

  function BeamPair(k: Key, b: Beam): Json { JArr([JStr(k), EncodeBeam(b)]) }

  /**
   `StructureIO.export`: an object whose `nodes` and `beams` list every entry
   of the maps once, in map order, each as a two-element array of the key and
   the record's JSON form.
   */
  function Export(s: Store): (j: Json)
    ensures j.JObj? && j.fields.Keys == {"nodes", "beams"}
    ensures ListsEntries(Field(j, "nodes"), s.nodes, NodePair)
    ensures ListsEntries(Field(j, "beams"), s.beams, BeamPair)
    ensures |Field(j, "nodes").items| == |s.nodes.entries| && |Field(j, "beams").items| == |s.beams.entries|
  {
    OrderedSize(s.nodes);
    OrderedSize(s.beams);
    JObj(map["nodes" := EncodeEntries(s.nodes, NodePair), "beams" := EncodeEntries(s.beams, BeamPair)])
  }

  /** Export writes, item for item, the entry pairs `save` writes to local storage. */
  lemma ExportIsSaveLayout(s: Store)
    ensures |Field(Export(s), "nodes").items| == |Save(s).nodes|
    ensures |Field(Export(s), "beams").items| == |Save(s).beams|
    ensures forall i | 0 <= i < |Save(s).nodes| ::
              Field(Export(s), "nodes").items[i] == NodePair(Save(s).nodes[i].0, Save(s).nodes[i].1)
    ensures forall i | 0 <= i < |Save(s).beams| ::
              Field(Export(s), "beams").items[i] == BeamPair(Save(s).beams[i].0, Save(s).beams[i].1)
  {
  }

  /** The id each kind of record is keyed by. */
  function NodeId(n: Node): string { n.id }

  function BeamId(b: Beam): string { b.id }

  /** Each record keyed by its own id, as `list.map(r => [r.id, r])` builds it. */
  function KeyedBy<R>(rs: seq<R>, id: R -> string): (es: seq<(string, R)>)
    ensures |es| == |rs| && forall i | 0 <= i < |rs| :: es[i] == (id(rs[i]), rs[i])
  {
    seq(|rs|, i requires 0 <= i < |rs| => (id(rs[i]), rs[i]))
  }

  /**
   `new Map(list.map(r => [r.id, r]))`: the map import installs. Every
   listed id is a key and nothing else is; each key holds a listed record
   with that id, the last one when the id repeats.
   */
  function RecordMap<R>(rs: seq<R>, id: R -> string): (m: OMap<R>)
    ensures |m.entries| <= |rs|
    ensures forall i | 0 <= i < |rs| :: id(rs[i]) in m.entries
    ensures forall k | k in m.entries ::
              id(m.entries[k]) == k && exists i | 0 <= i < |rs| :: m.entries[k] == rs[i]
    ensures forall i | 0 <= i < |rs| && (forall j | i < j < |rs| :: id(rs[j]) != id(rs[i])) ::
              m.entries[id(rs[i])] == rs[i]
  {
    RecordMapKeys(rs, id);
    RecordMapRecords(rs, id);
    RecordMapLastWins(rs, id);
    FromEntries(KeyedBy(rs, id))
  }

  lemma RecordMapKeys<R>(rs: seq<R>, id: R -> string)
    ensures |FromEntries(KeyedBy(rs, id)).entries| <= |rs|
    ensures forall i | 0 <= i < |rs| :: id(rs[i]) in FromEntries(KeyedBy(rs, id)).entries
  {
    KeysOfSize(KeyedBy(rs, id));
    KeysOfListed(KeyedBy(rs, id));
  }

  lemma RecordMapRecords<R>(rs: seq<R>, id: R -> string)
    ensures var m := FromEntries(KeyedBy(rs, id));
            forall k | k in m.entries :: id(m.entries[k]) == k && exists i | 0 <= i < |rs| :: m.entries[k] == rs[i]
  {
    forall k | k in KeysOf(KeyedBy(rs, id))
      ensures id(LastValue(KeyedBy(rs, id), k)) == k
      ensures exists i | 0 <= i < |rs| :: LastValue(KeyedBy(rs, id), k) == rs[i]
    {
      LastValueKeyedById(rs, id, k);
    }
  }

  lemma RecordMapLastWins<R>(rs: seq<R>, id: R -> string)
    ensures var m := FromEntries(KeyedBy(rs, id));
            forall i | 0 <= i < |rs| && (forall j | i < j < |rs| :: id(rs[j]) != id(rs[i])) ::
              id(rs[i]) in m.entries && m.entries[id(rs[i])] == rs[i]
  {
    var es := KeyedBy(rs, id);
    forall i | 0 <= i < |rs| && (forall j | i < j < |rs| :: id(rs[j]) != id(rs[i]))
      ensures es[i].0 in KeysOf(es) && LastValue(es, es[i].0) == es[i].1
    {
      LastValueIsLast(es, i);
    }
  }

  /** In a list keyed by record ids, the record under `k` is a listed record with id `k`. */
  lemma {:induction false} LastValueKeyedById<R>(rs: seq<R>, id: R -> string, k: string)
    requires k in KeysOf(KeyedBy(rs, id))
    ensures id(LastValue(KeyedBy(rs, id), k)) == k
    ensures exists i | 0 <= i < |rs| :: LastValue(KeyedBy(rs, id), k) == rs[i]
    decreases |rs|
  {
    var es := KeyedBy(rs, id);
    if es[|es| - 1].0 != k {
      assert es[..|es| - 1] == KeyedBy(rs[..|rs| - 1], id);
      LastValueKeyedById(rs[..|rs| - 1], id, k);
      var i :| 0 <= i < |rs| - 1 && LastValue(es[..|es| - 1], k) == rs[..|rs| - 1][i];
      assert LastValue(es, k) == rs[i];
    } else {
      assert LastValue(es, k) == rs[|rs| - 1];
    }
  }

  /**
   `StructureIO.import`: throws, changing nothing, when the text does not
   parse or the document fails the schema; otherwise replaces both maps with
   the parsed records keyed by their ids. Either way the action log is not
   touched.
   */
  function Import(s: Store, parsed: Option<Json>): (r: Outcome<Store>)
    ensures r.Threw? ==> r.state == s
    ensures r.Threw? ==> r.error == (if parsed.None? then MalformedJson else InvalidStructureFile)
    ensures r.Returned? <==> parsed.Some? && IsStructureDocument(parsed.value)
    ensures r.state.actionHistory == s.actionHistory && r.state.redoStack == s.redoStack
    ensures r.Returned? ==>
              var doc := SafeParse(parsed.value).value;
              && r.state.nodes == RecordMap(doc.nodes, NodeId)
              && r.state.beams == RecordMap(doc.beams, BeamId)
    ensures r.Returned? ==>
              && |r.state.nodes.entries| <= |Field(parsed.value, "nodes").items|
              && |r.state.beams.entries| <= |Field(parsed.value, "beams").items|
              && (forall k | k in r.state.nodes.entries :: IsUuid(k) && r.state.nodes.entries[k].id == k)
              && (forall k | k in r.state.beams.entries ::
                    r.state.beams.entries[k].id == k && PositiveMaterial(r.state.beams.entries[k].material))
  {
    match parsed
    case None => Threw(s, MalformedJson)
    case Some(j) =>
      match SafeParse(j)
      case None => Threw(s, InvalidStructureFile)
      case Some(doc) => Returned(s.(nodes := RecordMap(doc.nodes, NodeId), beams := RecordMap(doc.beams, BeamId)))
  }

  /**
   In the document's own terms: the id of the `i`-th node item becomes a
   key, and when no later item carries the same id, that key holds a node
   agreeing with the item field for field.
   */
  lemma ImportInstallsListedNode(s: Store, parsed: Option<Json>, i: int)
    requires parsed.Some? && IsStructureDocument(parsed.value)
    requires 0 <= i < |Field(parsed.value, "nodes").items|
    ensures var items := Field(parsed.value, "nodes").items;
            var m := Import(s, parsed).state.nodes.entries;
            && Field(items[i], "id").JStr? && Field(items[i], "id").s in m
            && ((forall j | i < j < |items| :: Field(items[j], "id") != Field(items[i], "id")) ==>
                  NodeAgrees(items[i], m[Field(items[i], "id").s]))
  {
    var doc := SafeParse(parsed.value).value;
    var items := Field(parsed.value, "nodes").items;
    var m := RecordMap(doc.nodes, NodeId);
    assert Import(s, parsed).state.nodes == m;
    assert Field(items[i], "id") == JStr(NodeId(doc.nodes[i]));
    if forall j | i < j < |items| :: Field(items[j], "id") != Field(items[i], "id") {
      forall j | i < j < |doc.nodes| ensures NodeId(doc.nodes[j]) != NodeId(doc.nodes[i]) {
        assert Field(items[j], "id") == JStr(NodeId(doc.nodes[j]));
      }
      assert m.entries[NodeId(doc.nodes[i])] == doc.nodes[i];
    }
  }

  /** The same for the `i`-th beam item. */
  lemma ImportInstallsListedBeam(s: Store, parsed: Option<Json>, i: int)
    requires parsed.Some? && IsStructureDocument(parsed.value)
    requires 0 <= i < |Field(parsed.value, "beams").items|
    ensures var items := Field(parsed.value, "beams").items;
            var m := Import(s, parsed).state.beams.entries;
            && Field(items[i], "id").JStr? && Field(items[i], "id").s in m
            && ((forall j | i < j < |items| :: Field(items[j], "id") != Field(items[i], "id")) ==>
                  BeamAgrees(items[i], m[Field(items[i], "id").s]))
  {
    var doc := SafeParse(parsed.value).value;
    var items := Field(parsed.value, "beams").items;
    var m := RecordMap(doc.beams, BeamId);
    assert Import(s, parsed).state.beams == m;
    assert Field(items[i], "id") == JStr(BeamId(doc.beams[i]));
    if forall j | i < j < |items| :: Field(items[j], "id") != Field(items[i], "id") {
      forall j | i < j < |doc.beams| ensures BeamId(doc.beams[j]) != BeamId(doc.beams[i]) {
        assert Field(items[j], "id") == JStr(BeamId(doc.beams[j]));
      }
      assert m.entries[BeamId(doc.beams[i])] == doc.beams[i];
    }
  }

  /**
   Import replaces the maps wholesale: what it installs depends on the
   document alone, not on the nodes and beams the store held before.
   */
  lemma ImportReplacesWholesale(s: Store, t: Store, parsed: Option<Json>)
    requires parsed.Some? && IsStructureDocument(parsed.value)
    ensures Import(s, parsed).Returned? && Import(t, parsed).Returned?
    ensures Import(s, parsed).state.nodes == Import(t, parsed).state.nodes
    ensures Import(s, parsed).state.beams == Import(t, parsed).state.beams
  {
  }

  // Export as written does not produce an importable document.

  /**
   The schema accepts `export`'s output only when both maps are empty: any
   `[id, record]` pair is an array where a record object is required.
   */
  lemma ExportPassesSchemaOnlyWhenEmpty(s: Store)
    ensures IsStructureDocument(Export(s)) <==> |s.nodes.entries| == 0 && |s.beams.entries| == 0
  {
    var j := Export(s);
    OrderedSize(s.nodes);
    OrderedSize(s.beams);
    if |s.nodes.entries| > 0 {
      assert !IsNodeRecord(Field(j, "nodes").items[0]);
    } else if |s.beams.entries| > 0 {
      assert !IsBeamRecord(Field(j, "beams").items[0]);
    }
  }

  /**
   `import(export())` as written: a store with any node or beam is rejected
   as an invalid structure file; only an empty store round-trips.
   */
  lemma ImportOfExport(s: Store)
    ensures |s.nodes.entries| == 0 && |s.beams.entries| == 0 ==> Import(s, Some(Export(s))) == Returned(s)
    ensures |s.nodes.entries| > 0 || |s.beams.entries| > 0 ==> Import(s, Some(Export(s))) == Threw(s, InvalidStructureFile)
  {
    ExportPassesSchemaOnlyWhenEmpty(s);
    if |s.nodes.entries| == 0 && |s.beams.entries| == 0 {
      OrderedSize(s.nodes);
      OrderedSize(s.beams);
      EmptyIsUnique(s.nodes);
      EmptyIsUnique(s.beams);
      var doc := SafeParse(Export(s)).value;
      assert |doc.nodes| == 0 && |doc.beams| == 0;
      EmptyIsUnique(RecordMap(doc.nodes, NodeId));
      EmptyIsUnique(RecordMap(doc.beams, BeamId));
    }
  }

  // The export the import schema expects.

  /** The record's JSON object alone, without its key. */
  function NodeRecord(k: Key, n: Node): Json { EncodeNode(n) }

  function BeamRecord(k: Key, b: Beam): Json { EncodeBeam(b) }

  /** Export with both lists holding the records' JSON objects, in map order. */
  function ExportRecords(s: Store): (j: Json)
    ensures j.JObj? && j.fields.Keys == {"nodes", "beams"}
    ensures ListsEntries(Field(j, "nodes"), s.nodes, NodeRecord)
    ensures ListsEntries(Field(j, "beams"), s.beams, BeamRecord)
    ensures |Field(j, "nodes").items| == |s.nodes.entries| && |Field(j, "beams").items| == |s.beams.entries|
  {
    OrderedSize(s.nodes);
    OrderedSize(s.beams);
    JObj(map["nodes" := EncodeEntries(s.nodes, NodeRecord), "beams" := EncodeEntries(s.beams, BeamRecord)])
  }

  /** Every id is a UUID and every material strictly positive. */
  ghost predicate SchemaConforming(s: Store) {
    && (forall k | k in s.nodes.entries :: IsUuid(s.nodes.entries[k].id))
    && (forall k | k in s.beams.entries ::
          var b := s.beams.entries[k];
          IsUuid(b.id) && IsUuid(b.startNodeId) && IsUuid(b.endNodeId) && PositiveMaterial(b.material))
  }

  /** The corrected export passes the schema exactly when the store's records conform to it. */
  lemma ExportRecordsAccepted(s: Store)
    ensures IsStructureDocument(ExportRecords(s)) <==> SchemaConforming(s)
  {
    AcceptedExportConforms(s);
    if SchemaConforming(s) {
      ConformingExportAccepted(s);
    }
  }

  lemma AcceptedExportConforms(s: Store)
    ensures IsStructureDocument(ExportRecords(s)) ==> SchemaConforming(s)
  {
    forall k | k in s.nodes.entries
      ensures IsStructureDocument(ExportRecords(s)) ==> IsUuid(s.nodes.entries[k].id)
    {
      AcceptedNodeConforms(s, k);
    }
    forall k | k in s.beams.entries
      ensures IsStructureDocument(ExportRecords(s)) ==>
                var b := s.beams.entries[k];
                IsUuid(b.id) && IsUuid(b.startNodeId) && IsUuid(b.endNodeId) && PositiveMaterial(b.material)
    {
      AcceptedBeamConforms(s, k);
    }
  }

  lemma AcceptedNodeConforms(s: Store, k: Key)
    requires k in s.nodes.entries
    ensures IsStructureDocument(ExportRecords(s)) ==> IsUuid(s.nodes.entries[k].id)
  {
    var i :| 0 <= i < |s.nodes.order| && s.nodes.order[i] == k;
    assert Field(ExportRecords(s), "nodes").items[i] == EncodeNode(s.nodes.entries[k]);
    NodeRecordRoundTrip(s.nodes.entries[k]);
  }

  lemma AcceptedBeamConforms(s: Store, k: Key)
    requires k in s.beams.entries
    ensures IsStructureDocument(ExportRecords(s)) ==>
              var b := s.beams.entries[k];
              IsUuid(b.id) && IsUuid(b.startNodeId) && IsUuid(b.endNodeId) && PositiveMaterial(b.material)
  {
    var i :| 0 <= i < |s.beams.order| && s.beams.order[i] == k;
    assert Field(ExportRecords(s), "beams").items[i] == EncodeBeam(s.beams.entries[k]);
    BeamRecordRoundTrip(s.beams.entries[k]);
  }

  lemma {:induction false} ConformingExportAccepted(s: Store)
    requires SchemaConforming(s)
    ensures IsStructureDocument(ExportRecords(s))
  {
    var j := ExportRecords(s);
    var nj := Field(j, "nodes").items;
    var bj := Field(j, "beams").items;
    forall i | 0 <= i < |nj| ensures IsNodeRecord(nj[i]) {
      NodeRecordRoundTrip(s.nodes.entries[s.nodes.order[i]]);
    }
    forall i | 0 <= i < |bj| ensures IsBeamRecord(bj[i]) {
      BeamRecordRoundTrip(s.beams.entries[s.beams.order[i]]);
    }
  }

  /** The records of a map, keyed by their own ids, are the map's own entries. */
  lemma KeyedValuesAreEntries(s: Store)
    requires KeyedById(s)
    ensures KeyedBy(Values(s.nodes), NodeId) == Entries(s.nodes)
    ensures KeyedBy(Values(s.beams), BeamId) == Entries(s.beams)
  {
  }

  /**
   A store whose records sit under their own ids and conform to the schema
   survives `import` of `ExportRecords` unchanged, order included.
   */
  lemma {:induction false} ExportRecordsRoundTrip(s: Store)
    requires KeyedById(s) && SchemaConforming(s)
    ensures Import(s, Some(ExportRecords(s))) == Returned(s)
  {
    var j := ExportRecords(s);
    var ns := Values(s.nodes);
    var bs := Values(s.beams);
    var nj := Field(j, "nodes").items;
    var bj := Field(j, "beams").items;
    forall i | 0 <= i < |ns| ensures IsNodeRecord(nj[i]) && DecodeNode(nj[i]) == ns[i] {
      assert nj[i] == EncodeNode(ns[i]);
      NodeRecordRoundTrip(ns[i]);
    }
    forall i | 0 <= i < |bs| ensures IsBeamRecord(bj[i]) && DecodeBeam(bj[i]) == bs[i] {
      assert bj[i] == EncodeBeam(bs[i]);
      BeamRecordRoundTrip(bs[i]);
    }
    assert IsStructureDocument(j);
    var doc := SafeParse(j).value;
    assert doc.nodes == ns;
    assert doc.beams == bs;
    KeyedValuesAreEntries(s);
    FromEntriesOfEntries(s.nodes);
    FromEntriesOfEntries(s.beams);
  }
}

=== FILE: json.dfy ===
/**
 Parsed JSON values: what `JSON.parse` hands to the schema and what
 `JSON.stringify` is given. The text form and the parser itself are not
 modelled; an object is a finite mapping from keys to values, as `JSON.parse`
 produces it (a repeated key keeps its last value).
 */
module JsonValues {

  datatype Json =
    | JNull
    | JBool(b: bool)
    | JNum(n: real)
    | JStr(s: string)
    | JArr(items: seq<Json>)
    | JObj(fields: map<string, Json>)

  /**
   Property access `j[name]`. An absent property reads as `undefined`, which is
   not a JSON value; every schema of this model rejects it exactly as it
   rejects `null`, so it is read as `JNull` here.
   */
  function Field(j: Json, name: string): Json {
    if j.JObj? && name in j.fields then j.fields[name] else JNull
  }
}

=== FILE: ordered_map.dfy ===
/**
 A model of the JavaScript `Map` the stores keep their nodes and beams in: a
 finite mapping that also remembers the order in which its keys were first
 inserted. That order is what `Map.prototype.entries()` enumerates, so it is
 what `save` and `export` write out and what `new Map(entries)` rebuilds.
 */
module OrderedMaps {

  /** Both stores key their maps by string ids. */
  type Key = string

  /** No key appears twice in `ks`. */
  predicate Distinct(ks: seq<Key>) {
    forall i, j | 0 <= i < j < |ks| :: ks[i] != ks[j]
  }

  /** The raw pair: keys in insertion order, and the key-to-value mapping. */
  datatype RawOMap<V> = RawOMap(order: seq<Key>, entries: map<Key, V>)

  /** The order lists every key of the mapping exactly once. */
  predicate Coherent<V>(m: RawOMap<V>) {
    && Distinct(m.order)
    && m.entries.Keys == (set k | k in m.order)
  }

  type OMap<V> = m: RawOMap<V> | Coherent(m) witness RawOMap([], map[])

  /** `new Map()` */
  function Empty<V>(): (m: OMap<V>)
    ensures |m.entries| == 0 && |m.order| == 0
  {
    RawOMap([], map[])
  }

  /** A map with no keys in its order is the empty map. */
  lemma EmptyIsUnique<V>(m: OMap<V>)
    requires |m.order| == 0
    ensures m == Empty()
  {
    assert m.entries.Keys == {};
  }

  /** A list without repetition has as many distinct elements as positions. */
  lemma {:induction false} DistinctSize(ks: seq<Key>)
    requires Distinct(ks)
    ensures |(set k | k in ks)| == |ks|
  {
    if |ks| > 0 {
      var n := |ks|;
      var init := ks[..n - 1];
      assert Distinct(init) by {
        assert forall i | 0 <= i < n - 1 :: init[i] == ks[i];
      }
      DistinctSize(init);
      assert ks[n - 1] !in init by {
        forall i | 0 <= i < n - 1 ensures init[i] != ks[n - 1] {
          assert init[i] == ks[i];
        }
      }
      assert (set k | k in ks) == (set k | k in init) + {ks[n - 1]} by {
        assert ks == init + [ks[n - 1]];
      }
    }
  }

  /** `m.size`: one entry per key in the order. */
  lemma OrderedSize<V>(m: OMap<V>)
    ensures |m.entries| == |m.order|
  {
    DistinctSize(m.order);
    assert |m.entries| == |m.entries.Keys|;
  }

  /**
   `Map.prototype.set`: binds `k` to `v`. A key already present keeps its place
   in the order; a new key goes to the end.
   */
  function Set<V>(m: OMap<V>, k: Key, v: V): (r: OMap<V>)
    ensures r.entries.Keys == m.entries.Keys + {k}
    ensures k in r.entries && r.entries[k] == v
    ensures forall j | j in m.entries && j != k :: r.entries[j] == m.entries[j]
    ensures m.order <= r.order
    ensures k in m.entries ==> |r.order| == |m.order|
    ensures k !in m.entries ==> |r.order| == |m.order| + 1 && r.order[|m.order|] == k
  {
    if k in m.entries then
      RawOMap(m.order, m.entries[k := v])
    else
      var r := RawOMap(m.order + [k], m.entries[k := v]);
      assert Coherent(r) by {
        forall i | 0 <= i < |m.order| ensures r.order[i] != k {
          assert m.order[i] in m.entries;
        }
      }
      r
  }

  /** `Array.from(m.entries())`: the `[key, value]` pairs in insertion order. */
  function Entries<V>(m: OMap<V>): (es: seq<(Key, V)>)
    ensures |es| == |m.order|
  {
    seq(|m.order|, i requires 0 <= i < |m.order| => (m.order[i], m.entries[m.order[i]]))
  }

  /** `Array.from(m.values())`: the values in insertion order. */
  function Values<V>(m: OMap<V>): (vs: seq<V>)
    ensures |vs| == |m.order|
  {
    seq(|m.order|, i requires 0 <= i < |m.order| => m.entries[m.order[i]])
  }

  /** The keys the pairs of `es` carry. */
  function KeysOf<V>(es: seq<(Key, V)>): set<Key>
    decreases |es|
  {
    if |es| == 0 then {} else KeysOf(es[..|es| - 1]) + {es[|es| - 1].0}
  }

  /** `KeysOf` holds the key of every pair and nothing else. */
  lemma {:induction false} KeysOfListed<V>(es: seq<(Key, V)>)
    ensures forall i | 0 <= i < |es| :: es[i].0 in KeysOf(es)
    ensures forall k | k in KeysOf(es) :: exists i | 0 <= i < |es| :: es[i].0 == k
  {
    if |es| > 0 {
      var init := es[..|es| - 1];
      KeysOfListed(init);
      assert forall i | 0 <= i < |init| :: init[i] == es[i];
    }
  }

  /** The value of the last pair of `es` that carries `k`. */
  function LastValue<V>(es: seq<(Key, V)>, k: Key): V
    requires k in KeysOf(es)
  {
    var last := es[|es| - 1];
    if last.0 == k then last.1 else LastValue(es[..|es| - 1], k)
  }

  /** A pair no later pair overrides supplies the value of its key. */
  lemma {:induction false} LastValueIsLast<V>(es: seq<(Key, V)>, i: nat)
    requires i < |es|
    requires forall j | i < j < |es| :: es[j].0 != es[i].0
    ensures es[i].0 in KeysOf(es) && LastValue(es, es[i].0) == es[i].1
  {
    KeysOfListed(es);
    if i < |es| - 1 {
      var init := es[..|es| - 1];
      assert init[i] == es[i];
      LastValueIsLast(init, i);
    }
  }

  /**
   `new Map(es)`: the pairs are set one after another, so the map holds exactly
   the keys listed, each with the value of its last pair.
   */
  function FromEntries<V>(es: seq<(Key, V)>): (m: OMap<V>)
    ensures m.entries.Keys == KeysOf(es)
    ensures forall k | k in m.entries :: m.entries[k] == LastValue(es, k)
    decreases |es|
  {
    if |es| == 0 then
      Empty()
    else
      var init := es[..|es| - 1];
      var last := es[|es| - 1];
      var prev := FromEntries(init);
      var r := Set(prev, last.0, last.1);
      assert forall k | k in r.entries :: r.entries[k] == LastValue(es, k) by {
        forall k | k in r.entries ensures r.entries[k] == LastValue(es, k) {
          if k != last.0 {
            assert r.entries[k] == prev.entries[k];
          }
        }
      }
      r
  }

  /** A list of pairs carries at most as many keys as it has pairs. */
  lemma {:induction false} KeysOfSize<V>(es: seq<(Key, V)>)
    ensures |KeysOf(es)| <= |es|
  {
    if |es| > 0 {
      var init := es[..|es| - 1];
      KeysOfSize(init);
    }
  }

  /** The keys of `es`, pair by pair. */
  function KeySeq<V>(es: seq<(Key, V)>): (ks: seq<Key>)
    ensures |ks| == |es|
  {
    seq(|es|, i requires 0 <= i < |es| => es[i].0)
  }

  /** When every pair carrying `k` carries `v`, the last one does too. */
  lemma {:induction false} LastValueOfUniform<V>(es: seq<(Key, V)>, k: Key, v: V)
    requires k in KeysOf(es)
    requires forall i | 0 <= i < |es| && es[i].0 == k :: es[i].1 == v
    ensures LastValue(es, k) == v
  {
    var init := es[..|es| - 1];
    if es[|es| - 1].0 != k {
      assert forall i | 0 <= i < |init| :: init[i] == es[i];
      LastValueOfUniform(init, k, v);
    }
  }

  /** Pairs with distinct keys are rebuilt in their own order. */
  lemma {:induction false} FromEntriesOrder<V>(es: seq<(Key, V)>)
    requires Distinct(KeySeq(es))
    ensures FromEntries(es).order == KeySeq(es)
  {
    if |es| > 0 {
      var init := es[..|es| - 1];
      var k := es[|es| - 1].0;
      assert KeySeq(es) == KeySeq(init) + [k];
      assert Distinct(KeySeq(init)) by {
        assert forall i | 0 <= i < |init| :: KeySeq(init)[i] == KeySeq(es)[i];
      }
      FromEntriesOrder(init);
      assert k !in KeysOf(init) by {
        KeysOfListed(init);
        forall i | 0 <= i < |init| ensures init[i].0 != k {
          assert KeySeq(es)[i] != KeySeq(es)[|es| - 1];
        }
      }
    }
  }

  /** The keys of `Entries(m)` are `m`'s keys, in its order. */
  lemma EntriesKeySeq<V>(m: OMap<V>)
    ensures KeySeq(Entries(m)) == m.order
  {
  }

  /** Every key of `m` is carried by some pair of `Entries(m)`, and only with its value. */
  lemma {:induction false} EntriesValues<V>(m: OMap<V>)
    ensures KeysOf(Entries(m)) == m.entries.Keys
    ensures forall k | k in m.entries :: LastValue(Entries(m), k) == m.entries[k]
  {
    var es := Entries(m);
    KeysOfListed(es);
    forall k | k in m.entries ensures k in KeysOf(es) {
      var i :| 0 <= i < |m.order| && m.order[i] == k;
      assert es[i].0 == k;
    }
    forall k | k in m.entries ensures LastValue(es, k) == m.entries[k] {
      LastValueOfUniform(es, k, m.entries[k]);
    }
  }

  /** Rebuilding a map from its own entry list gives back the same map, order included. */
  lemma {:induction false} FromEntriesOfEntries<V>(m: OMap<V>)
    ensures FromEntries(Entries(m)) == m
  {
    var r := FromEntries(Entries(m));
    EntriesKeySeq(m);
    FromEntriesOrder(Entries(m));
    EntriesValues(m);
    assert r.entries == m.entries;
  }
}

=== FILE: record_json.dfy ===
/**
 The JSON form `JSON.stringify` gives each record of the structural model:
 vectors as three-element arrays, records as objects with one property per
 field.
 */
module RecordJson {
  import opened StructureTypes
  import opened JsonValues

  function EncodeVector(v: Vector3): Json {
    JArr([JNum(v.x), JNum(v.y), JNum(v.z)])
  }

  function EncodeConstraints(c: Constraints): Json {
    JObj(map["x" := JBool(c.x), "y" := JBool(c.y), "z" := JBool(c.z), "rotation" := JBool(c.rotation)])
  }

  function EncodeLoad(l: Load): Json {
    JObj(map["force" := EncodeVector(l.force), "moment" := EncodeVector(l.moment)])
  }

  function EncodeLoads(ls: seq<Load>): Json {
    JArr(seq(|ls|, i requires 0 <= i < |ls| => EncodeLoad(ls[i])))
  }

  function EncodeNode(n: Node): Json {
    JObj(map[
      "id" := JStr(n.id),
      "position" := EncodeVector(n.position),
      "constraints" := EncodeConstraints(n.constraints),
      "loads" := EncodeLoads(n.loads)])
  }

  function EncodeMaterial(m: Material): Json {
    JObj(map[
      "youngsModulus" := JNum(m.youngsModulus),
      "area" := JNum(m.area),
      "inertia" := JObj(map["x" := JNum(m.inertia.x), "y" := JNum(m.inertia.y), "z" := JNum(m.inertia.z)])])
  }

  function EncodeBeam(b: Beam): Json {
    JObj(map[
      "id" := JStr(b.id),
      "startNodeId" := JStr(b.startNodeId),
      "endNodeId" := JStr(b.endNodeId),
      "material" := EncodeMaterial(b.material)])
  }
}

=== FILE: structure_store.dfy ===
/**
 The structure store: the id-to-node and id-to-beam maps, the action log with
 its redo stack, and the snapshot that is written to and read from local
 storage. Every operation is a function from the store before to the store
 after; the fresh id `crypto.randomUUID()` would produce is a parameter.
 */
module Structure {
  import opened StructureTypes
  import opened OrderedMaps

  /** An entry of the action log: its type tag and payload. */
  datatype Action =
    | AddNodeAction(position: Vector3)
    | AddBeamAction(startNodeId: string, endNodeId: string)

  datatype Store = Store(
    actionHistory: seq<Action>,
    redoStack: seq<Action>,
    nodes: OMap<Node>,
    beams: OMap<Beam>)

  /** The fields' initial values, before anything is loaded. */
  function EmptyStore(): (s: Store)
    ensures |s.actionHistory| == 0 && |s.redoStack| == 0
    ensures |s.nodes.entries| == 0 && |s.beams.entries| == 0
  {
    Store([], [], Empty(), Empty())
  }

  /**
   `addNode`: logs the action, clears the redo stack, and binds `newId` to a
   node at `position` with every constraint off and no loads. Returns no id.
   */
  function AddNode(s: Store, position: Vector3, newId: string): (r: Store)
    ensures r.actionHistory == s.actionHistory + [AddNodeAction(position)]
    ensures r.redoStack == []
    ensures r.nodes.entries.Keys == s.nodes.entries.Keys + {newId}
    ensures r.nodes.entries[newId] == Node(newId, position, Unconstrained, [])
    ensures forall k | k in s.nodes.entries && k != newId :: r.nodes.entries[k] == s.nodes.entries[k]
    ensures newId !in s.nodes.entries ==> |r.nodes.entries| == |s.nodes.entries| + 1
    ensures r.nodes.order == if newId in s.nodes.entries then s.nodes.order else s.nodes.order + [newId]
    ensures r.beams == s.beams
  {
    Store(
      s.actionHistory + [AddNodeAction(position)],
      [],
      Set(s.nodes, newId, Node(newId, position, Unconstrained, [])),
      s.beams)
  }

  /**
   `addBeam`: logs the action and clears the redo stack FIRST, then throws if
   either endpoint is missing (start checked before end). Otherwise binds
   `newId` to a beam with the default material. Nothing forbids a beam from a
   node to itself.
   */
  function AddBeam(s: Store, startNodeId: string, endNodeId: string, newId: string): (r: Outcome<Store>)
    ensures r.state.actionHistory == s.actionHistory + [AddBeamAction(startNodeId, endNodeId)]
    ensures r.state.redoStack == []
    ensures r.state.nodes == s.nodes
    ensures r.Returned? <==> startNodeId in s.nodes.entries && endNodeId in s.nodes.entries
    ensures r.Threw? ==> r.state.beams == s.beams
    ensures r.Threw? ==> r.error == (if startNodeId !in s.nodes.entries then InvalidStartNode else InvalidEndNode)
    ensures r.Returned? ==>
              && r.state.beams.entries.Keys == s.beams.entries.Keys + {newId}
              && r.state.beams.entries[newId] == Beam(newId, startNodeId, endNodeId, DefaultMaterial)
              && (forall k | k in s.beams.entries && k != newId :: r.state.beams.entries[k] == s.beams.entries[k])
              && r.state.beams.order == if newId in s.beams.entries then s.beams.order else s.beams.order + [newId]
  {
    var logged := s.(actionHistory := s.actionHistory + [AddBeamAction(startNodeId, endNodeId)], redoStack := []);
    if startNodeId !in s.nodes.entries then
      Threw(logged, InvalidStartNode)
    else if endNodeId !in s.nodes.entries then
      Threw(logged, InvalidEndNode)
    else
      Returned(logged.(beams := Set(s.beams, newId, Beam(newId, startNodeId, endNodeId, DefaultMaterial))))
  }

  /**
   `undo`: moves the newest logged action to the top of the redo stack. The
   switch on the action type has empty cases, so the maps are never touched.
   */
  function Undo(s: Store): (r: Store)
    ensures r.nodes == s.nodes && r.beams == s.beams
    ensures |r.actionHistory| + |r.redoStack| == |s.actionHistory| + |s.redoStack|
    ensures |s.actionHistory| == 0 ==> r == s
    ensures |s.actionHistory| > 0 ==>
              && s.actionHistory == r.actionHistory + [s.actionHistory[|s.actionHistory| - 1]]
              && r.redoStack == s.redoStack + [s.actionHistory[|s.actionHistory| - 1]]
  {
    if |s.actionHistory| == 0 then
      s
    else
      var n := |s.actionHistory|;
      s.(actionHistory := s.actionHistory[..n - 1], redoStack := s.redoStack + [s.actionHistory[n - 1]])
  }

  /** `redo`: the mirror of `undo`, from the redo stack back to the log. */
  function Redo(s: Store): (r: Store)
    ensures r.nodes == s.nodes && r.beams == s.beams
    ensures |r.actionHistory| + |r.redoStack| == |s.actionHistory| + |s.redoStack|
    ensures |s.redoStack| == 0 ==> r == s
    ensures |s.redoStack| > 0 ==>
              && s.redoStack == r.redoStack + [s.redoStack[|s.redoStack| - 1]]
              && r.actionHistory == s.actionHistory + [s.redoStack[|s.redoStack| - 1]]
  {
    if |s.redoStack| == 0 then
      s
    else
      var n := |s.redoStack|;
      s.(redoStack := s.redoStack[..n - 1], actionHistory := s.actionHistory + [s.redoStack[n - 1]])
  }

  /** An undo followed by a redo restores both stacks. */
  lemma UndoThenRedo(s: Store)
    requires |s.actionHistory| > 0
    ensures Redo(Undo(s)) == s
  {
    var u := Undo(s);
    assert u.redoStack[..|u.redoStack| - 1] == s.redoStack;
  }

  /** A redo followed by an undo restores both stacks. */
  lemma RedoThenUndo(s: Store)
    requires |s.redoStack| > 0
    ensures Undo(Redo(s)) == s
  {
    var r := Redo(s);
    assert r.actionHistory[..|r.actionHistory| - 1] == s.actionHistory;
  }

  /**
   Undoing `addNode` restores the stacks as they were (with the action now
   on the redo stack) but leaves the new node in place.
   */
  lemma UndoKeepsAddedNode(s: Store, position: Vector3, newId: string)
    ensures Undo(AddNode(s, position, newId)).actionHistory == s.actionHistory
    ensures Undo(AddNode(s, position, newId)).redoStack == [AddNodeAction(position)]
    ensures newId in Undo(AddNode(s, position, newId)).nodes.entries
  {
    var a := AddNode(s, position, newId);
    assert a.actionHistory[..|a.actionHistory| - 1] == s.actionHistory;
  }

  /**
   `applyForce`: throws if the node is missing; otherwise appends one load
   with the given force and a zero moment to that node, and to no other.
   The action log is not touched.
   */
  function ApplyForce(s: Store, nodeId: string, force: Vector3): (r: Outcome<Store>)
    ensures r.Threw? <==> nodeId !in s.nodes.entries
    ensures r.Threw? ==> r.state == s && r.error == InvalidNodeId
    ensures r.state.actionHistory == s.actionHistory && r.state.redoStack == s.redoStack
    ensures r.state.beams == s.beams
    ensures r.Returned? ==>
              && r.state.nodes.order == s.nodes.order
              && r.state.nodes.entries.Keys == s.nodes.entries.Keys
              && (forall k | k in s.nodes.entries && k != nodeId :: r.state.nodes.entries[k] == s.nodes.entries[k])
              && var before := s.nodes.entries[nodeId];
                 var after := r.state.nodes.entries[nodeId];
                 && after.id == before.id && after.position == before.position
                 && after.constraints == before.constraints
                 && after.loads == before.loads + [Load(force, ZeroVector)]
  {
    if nodeId !in s.nodes.entries then
      Threw(s, InvalidNodeId)
    else
      var n := s.nodes.entries[nodeId];
      Returned(s.(nodes := Set(s.nodes, nodeId, n.(loads := n.loads + [Load(force, ZeroVector)]))))
  }

  /** The stored blob: both maps as `[id, record]` entry lists. */
  datatype SavedStructure = SavedStructure(nodes: seq<(string, Node)>, beams: seq<(string, Beam)>)

  /** `save`: the entries of both maps, in insertion order. */
  function Save(s: Store): (saved: SavedStructure)
    ensures |saved.nodes| == |s.nodes.entries| == |s.nodes.order|
    ensures |saved.beams| == |s.beams.entries| == |s.beams.order|
    ensures forall i | 0 <= i < |saved.nodes| ::
              && saved.nodes[i].0 == s.nodes.order[i]
              && saved.nodes[i].0 in s.nodes.entries && s.nodes.entries[saved.nodes[i].0] == saved.nodes[i].1
    ensures forall i | 0 <= i < |saved.beams| ::
              && saved.beams[i].0 == s.beams.order[i]
              && saved.beams[i].0 in s.beams.entries && s.beams.entries[saved.beams[i].0] == saved.beams[i].1
  {
    assert |s.nodes.entries| == |s.nodes.order| by { OrderedSize(s.nodes); }
    assert |s.beams.entries| == |s.beams.order| by { OrderedSize(s.beams); }
    SavedStructure(Entries(s.nodes), Entries(s.beams))
  }

  /**
   `loadInitialState`: with no saved blob (nothing stored, or the empty
   string) the store is left as it is; otherwise both maps are rebuilt from
   the blob's entry lists. The action log is not touched.
   */
  function LoadInitialState(s: Store, saved: Option<SavedStructure>): (r: Store)
    ensures r.actionHistory == s.actionHistory && r.redoStack == s.redoStack
    ensures saved.None? ==> r == s
    ensures saved.Some? ==>
              && r.nodes.entries.Keys == KeysOf(saved.value.nodes)
              && r.beams.entries.Keys == KeysOf(saved.value.beams)
              && (forall k | k in r.nodes.entries :: r.nodes.entries[k] == LastValue(saved.value.nodes, k))
              && (forall k | k in r.beams.entries :: r.beams.entries[k] == LastValue(saved.value.beams, k))
  {
    match saved
    case None => s
    case Some(blob) => s.(nodes := FromEntries(blob.nodes), beams := FromEntries(blob.beams))
  }

  /** The store as the constructor leaves it. */
  function Init(saved: Option<SavedStructure>): (s: Store)
    ensures |s.actionHistory| == 0 && |s.redoStack| == 0
    ensures saved.None? ==> s == EmptyStore()
    ensures saved.Some? ==>
              && s.nodes.entries.Keys == KeysOf(saved.value.nodes)
              && s.beams.entries.Keys == KeysOf(saved.value.beams)
              && (forall k | k in s.nodes.entries :: s.nodes.entries[k] == LastValue(saved.value.nodes, k))
              && (forall k | k in s.beams.entries :: s.beams.entries[k] == LastValue(saved.value.beams, k))
  {
    LoadInitialState(EmptyStore(), saved)
  }

  /** Loading what `save` wrote gives back the same nodes and beams, in the same order. */
  lemma SaveLoadRoundTrip(s: Store, t: Store)
    ensures LoadInitialState(t, Some(Save(s))).nodes == s.nodes
    ensures LoadInitialState(t, Some(Save(s))).beams == s.beams
  {
    FromEntriesOfEntries(s.nodes);
    FromEntriesOfEntries(s.beams);
  }

  /** Every record sits under its own id. */
  ghost predicate KeyedById(s: Store) {
    && (forall k | k in s.nodes.entries :: s.nodes.entries[k].id == k)
    && (forall k | k in s.beams.entries :: s.beams.entries[k].id == k)
  }

  /** Every beam's endpoints name nodes of the store. */
  ghost predicate EndpointsResolve(s: Store) {
    forall k | k in s.beams.entries ::
      s.beams.entries[k].startNodeId in s.nodes.entries && s.beams.entries[k].endNodeId in s.nodes.entries
  }

  /** `addNode` only adds a node, under its own id. */
  lemma AddNodePreservesInvariants(s: Store, position: Vector3, newId: string)
    requires KeyedById(s) && EndpointsResolve(s)
    ensures KeyedById(AddNode(s, position, newId)) && EndpointsResolve(AddNode(s, position, newId))
  {
  }

  /** `addBeam` checks both endpoints before it adds a beam under its own id. */
  lemma AddBeamPreservesInvariants(s: Store, a: string, b: string, newId: string)
    requires KeyedById(s) && EndpointsResolve(s)
    ensures KeyedById(AddBeam(s, a, b, newId).state) && EndpointsResolve(AddBeam(s, a, b, newId).state)
  {
  }

  /** `applyForce` changes loads only. */
  lemma ApplyForcePreservesInvariants(s: Store, nodeId: string, force: Vector3)
    requires KeyedById(s) && EndpointsResolve(s)
    ensures KeyedById(ApplyForce(s, nodeId, force).state) && EndpointsResolve(ApplyForce(s, nodeId, force).state)
  {
  }

  /** Applying `addNode` once per `(id, position)` call, left to right. */
  function AddNodes(s: Store, calls: seq<(string, Vector3)>): Store
    decreases |calls|
  {
    if |calls| == 0 then s
    else
      var last := calls[|calls| - 1];
      AddNode(AddNodes(s, calls[..|calls| - 1]), last.1, last.0)
  }

  /** After a run of `addNode` calls the keys are the old ones and the call ids. */
  lemma {:induction false} AddNodesKeys(s: Store, calls: seq<(string, Vector3)>)
    ensures AddNodes(s, calls).nodes.entries.Keys == s.nodes.entries.Keys + KeysOf(calls)
    ensures |AddNodes(s, calls).actionHistory| == |s.actionHistory| + |calls|
  {
    if |calls| > 0 {
      AddNodesKeys(s, calls[..|calls| - 1]);
    }
  }

  /** The first calls of a run with distinct ids never reuse the last call's id. */
  lemma {:induction false} LastCallIdIsNew(s: Store, calls: seq<(string, Vector3)>)
    requires |calls| > 0 && Distinct(KeySeq(calls))
    requires calls[|calls| - 1].0 !in s.nodes.entries
    ensures calls[|calls| - 1].0 !in AddNodes(s, calls[..|calls| - 1]).nodes.entries
  {
    var init := calls[..|calls| - 1];
    var k := calls[|calls| - 1].0;
    AddNodesKeys(s, init);
    KeysOfListed(init);
    forall i | 0 <= i < |init| ensures init[i].0 != k {
      assert KeySeq(calls)[i] != KeySeq(calls)[|calls| - 1];
    }
  }

  /**
   A run of `addNode` calls with fresh, distinct ids adds one node per call;
   the log, which has no cap, grows by one entry per call.
   */
  lemma {:induction false} AddNodesCount(s: Store, calls: seq<(string, Vector3)>)
    requires Distinct(KeySeq(calls))
    requires forall i | 0 <= i < |calls| :: calls[i].0 !in s.nodes.entries
    ensures |AddNodes(s, calls).nodes.entries| == |s.nodes.entries| + |calls|
  {
    if |calls| > 0 {
      var init := calls[..|calls| - 1];
      assert Distinct(KeySeq(init)) by {
        assert forall i | 0 <= i < |init| :: KeySeq(init)[i] == KeySeq(calls)[i];
      }
      assert forall i | 0 <= i < |init| :: init[i].0 !in s.nodes.entries by {
        assert forall i | 0 <= i < |init| :: init[i] == calls[i];
      }
      AddNodesCount(s, init);
      LastCallIdIsNew(s, calls);
    }
  }
}

=== FILE: types.dfy ===
/**
 The records of the structural model (nodes, beams, loads, materials) and the
 small wrappers the stores use to report what happened. Numbers are modelled
 as mathematical reals: the model says nothing about NaN, infinities or
 rounding.
 */
module StructureTypes {

  /** A point or direction in world coordinates, `[x, y, z]`. */
  datatype Vector3 = Vector3(x: real, y: real, z: real)

  const ZeroVector: Vector3 := Vector3(0.0, 0.0, 0.0)

  /** Which degrees of freedom of a node are fixed. */
  datatype Constraints = Constraints(x: bool, y: bool, z: bool, rotation: bool)

  /** A node that is free in every degree of freedom. */
  const Unconstrained: Constraints := Constraints(false, false, false, false)

  /** A force/moment pair applied at a node. */
  datatype Load = Load(force: Vector3, moment: Vector3)

  datatype Node = Node(id: string, position: Vector3, constraints: Constraints, loads: seq<Load>)

  /** Moments of inertia about the three axes, in m^4. */
  datatype Inertia = Inertia(x: real, y: real, z: real)

  /** Young's modulus in Pa, cross-section area in m^2. */
  datatype Material = Material(youngsModulus: real, area: real, inertia: Inertia)

  /** The material every new beam gets: steel, 10 cm^2, 1e-6 m^4 on every axis. */
  const DefaultMaterial: Material :=
    Material(200000000000.0, 0.01, Inertia(0.000001, 0.000001, 0.000001))

  datatype Beam = Beam(id: string, startNodeId: string, endNodeId: string, material: Material)

  /** Every numeric field of the material is strictly positive. */
  predicate PositiveMaterial(m: Material) {
    m.youngsModulus > 0.0 && m.area > 0.0
    && m.inertia.x > 0.0 && m.inertia.y > 0.0 && m.inertia.z > 0.0
  }

  datatype Option<+T> = None | Some(value: T)

  /** The errors the data layer throws. */
  datatype Error =
    | InvalidStartNode      // addBeam: "Invalid start node"
    | InvalidEndNode        // addBeam: "Invalid end node"
    | InvalidNodeId         // applyForce: "Invalid node ID"
    | InvalidStructureFile  // import: the document fails the schema
    | MalformedJson         // import: JSON.parse rejects the text

  /**
   The state an operation leaves behind, and whether it returned normally or
   threw. A throwing operation may still have changed the state before it threw.
   */
  datatype Outcome<S> = Returned(state: S) | Threw(state: S, error: Error)
}

=== FILE: validation.dfy ===
/**
 The import schema: which parsed JSON documents are accepted as a structure
 file, and the typed records an accepted document parses to. Objects are
 checked field by field and unknown properties are dropped from the parsed
 records; arrays may be of any length; nothing relates one record to another.
 */
module Validation {
  import opened StructureTypes
  import opened JsonValues
  import opened RecordJson

  predicate IsHexDigit(c: char) {
    ('0' <= c <= '9') || ('a' <= c <= 'f') || ('A' <= c <= 'F')
  }

  /**
   The textual form of a UUID (section 3 of RFC 4122): 32 hexadecimal digits,
   in either case, grouped 8-4-4-4-12 by hyphens. The version and variant
   digits are not checked.
   */
  predicate IsUuid(s: string) {
    && |s| == 36
    && forall i | 0 <= i < 36 ::
         if i == 8 || i == 13 || i == 18 || i == 23 then s[i] == '-' else IsHexDigit(s[i])
  }

  predicate IsUuidString(j: Json) {
    j.JStr? && IsUuid(j.s)
  }

  predicate IsPositiveNumber(j: Json) {
    j.JNum? && j.n > 0.0
  }

  /** A tuple of exactly three numbers. */
  predicate IsVector3(j: Json) {
    j.JArr? && |j.items| == 3 && j.items[0].JNum? && j.items[1].JNum? && j.items[2].JNum?
  }

  predicate IsConstraints(j: Json) {
    && j.JObj?
    && Field(j, "x").JBool?
    && Field(j, "y").JBool?
    && Field(j, "z").JBool?
    && Field(j, "rotation").JBool?
  }

  predicate IsLoadRecord(j: Json) {
    j.JObj? && IsVector3(Field(j, "force")) && IsVector3(Field(j, "moment"))
  }

  predicate IsLoadList(j: Json) {
    j.JArr? && forall i | 0 <= i < |j.items| :: IsLoadRecord(j.items[i])
  }

  predicate IsNodeRecord(j: Json) {
    && j.JObj?
    && IsUuidString(Field(j, "id"))
    && IsVector3(Field(j, "position"))
    && IsConstraints(Field(j, "constraints"))
    && IsLoadList(Field(j, "loads"))
  }

  predicate IsInertia(j: Json) {
    && j.JObj?
    && IsPositiveNumber(Field(j, "x"))
    && IsPositiveNumber(Field(j, "y"))
    && IsPositiveNumber(Field(j, "z"))
  }

  predicate IsMaterial(j: Json) {
    && j.JObj?
    && IsPositiveNumber(Field(j, "youngsModulus"))
    && IsPositiveNumber(Field(j, "area"))
    && IsInertia(Field(j, "inertia"))
  }

  predicate IsBeamRecord(j: Json) {
    && j.JObj?
    && IsUuidString(Field(j, "id"))
    && IsUuidString(Field(j, "startNodeId"))
    && IsUuidString(Field(j, "endNodeId"))
    && IsMaterial(Field(j, "material"))
  }

  predicate IsNodeList(j: Json) {
    j.JArr? && forall i | 0 <= i < |j.items| :: IsNodeRecord(j.items[i])
  }

  predicate IsBeamList(j: Json) {
    j.JArr? && forall i | 0 <= i < |j.items| :: IsBeamRecord(j.items[i])
  }

  /** `StructureSchema`: an object whose `nodes` and `beams` are lists of records. */
  predicate IsStructureDocument(j: Json) {
    j.JObj? && IsNodeList(Field(j, "nodes")) && IsBeamList(Field(j, "beams"))
  }

  // The typed records an accepted document parses to.

  function DecodeVector(j: Json): Vector3
    requires IsVector3(j)
  {
    Vector3(j.items[0].n, j.items[1].n, j.items[2].n)
  }

  function DecodeConstraints(j: Json): Constraints
    requires IsConstraints(j)
  {
    Constraints(Field(j, "x").b, Field(j, "y").b, Field(j, "z").b, Field(j, "rotation").b)
  }

  function DecodeLoad(j: Json): Load
    requires IsLoadRecord(j)
  {
    Load(DecodeVector(Field(j, "force")), DecodeVector(Field(j, "moment")))
  }

  function DecodeNode(j: Json): Node
    requires IsNodeRecord(j)
  {
    var loads := Field(j, "loads").items;
    Node(
      Field(j, "id").s,
      DecodeVector(Field(j, "position")),
      DecodeConstraints(Field(j, "constraints")),
      seq(|loads|, i requires 0 <= i < |loads| => DecodeLoad(loads[i])))
  }

  function DecodeMaterial(j: Json): Material
    requires IsMaterial(j)
  {
    var inertia := Field(j, "inertia");
    Material(
      Field(j, "youngsModulus").n,
      Field(j, "area").n,
      Inertia(Field(inertia, "x").n, Field(inertia, "y").n, Field(inertia, "z").n))
  }

  function DecodeBeam(j: Json): Beam
    requires IsBeamRecord(j)
  {
    Beam(
      Field(j, "id").s,
      Field(j, "startNodeId").s,
      Field(j, "endNodeId").s,
      DecodeMaterial(Field(j, "material")))
  }

  // What it means for a parsed record to come from a JSON item: every property
  // the schema reads carries the record's field; other properties are ignored.

  predicate ConstraintsAgree(j: Json, c: Constraints) {
    && Field(j, "x") == JBool(c.x)
    && Field(j, "y") == JBool(c.y)
    && Field(j, "z") == JBool(c.z)
    && Field(j, "rotation") == JBool(c.rotation)
  }

  predicate LoadsAgree(j: Json, ls: seq<Load>) {
    && j.JArr? && |j.items| == |ls|
    && forall i | 0 <= i < |ls| ::
         Field(j.items[i], "force") == EncodeVector(ls[i].force)
         && Field(j.items[i], "moment") == EncodeVector(ls[i].moment)
  }

  predicate NodeAgrees(j: Json, n: Node) {
    && Field(j, "id") == JStr(n.id)
    && Field(j, "position") == EncodeVector(n.position)
    && ConstraintsAgree(Field(j, "constraints"), n.constraints)
    && LoadsAgree(Field(j, "loads"), n.loads)
  }

  predicate MaterialAgrees(j: Json, m: Material) {
    && Field(j, "youngsModulus") == JNum(m.youngsModulus)
    && Field(j, "area") == JNum(m.area)
    && Field(Field(j, "inertia"), "x") == JNum(m.inertia.x)
    && Field(Field(j, "inertia"), "y") == JNum(m.inertia.y)
    && Field(Field(j, "inertia"), "z") == JNum(m.inertia.z)
  }

  predicate BeamAgrees(j: Json, b: Beam) {
    && Field(j, "id") == JStr(b.id)
    && Field(j, "startNodeId") == JStr(b.startNodeId)
    && Field(j, "endNodeId") == JStr(b.endNodeId)
    && MaterialAgrees(Field(j, "material"), b.material)
  }

  /** An accepted node item parses to a node that agrees with it. */
  lemma DecodeNodeAgrees(j: Json)
    requires IsNodeRecord(j)
    ensures NodeAgrees(j, DecodeNode(j))
  {
    var n := DecodeNode(j);
    assert Field(j, "position") == EncodeVector(n.position);
    var loads := Field(j, "loads").items;
    forall i | 0 <= i < |n.loads|
      ensures Field(loads[i], "force") == EncodeVector(n.loads[i].force)
      ensures Field(loads[i], "moment") == EncodeVector(n.loads[i].moment)
    {
      assert n.loads[i] == DecodeLoad(loads[i]);
    }
  }

  /** An accepted beam item parses to a beam that agrees with it. */
  lemma DecodeBeamAgrees(j: Json)
    requires IsBeamRecord(j)
    ensures BeamAgrees(j, DecodeBeam(j))
  {
  }

  lemma DecodedNodesAgree(ns: seq<Json>)
    requires forall i | 0 <= i < |ns| :: IsNodeRecord(ns[i])
    ensures forall i | 0 <= i < |ns| :: NodeAgrees(ns[i], DecodeNode(ns[i]))
  {
    forall i | 0 <= i < |ns| ensures NodeAgrees(ns[i], DecodeNode(ns[i])) {
      DecodeNodeAgrees(ns[i]);
    }
  }

  lemma DecodedBeamsAgree(bs: seq<Json>)
    requires forall i | 0 <= i < |bs| :: IsBeamRecord(bs[i])
    ensures forall i | 0 <= i < |bs| :: BeamAgrees(bs[i], DecodeBeam(bs[i]))
  {
    forall i | 0 <= i < |bs| ensures BeamAgrees(bs[i], DecodeBeam(bs[i])) {
      DecodeBeamAgrees(bs[i]);
    }
  }

  /** At most one node agrees with a given item: agreement pins every field. */
  lemma {:induction false} NodeAgreementIsUnique(j: Json, n1: Node, n2: Node)
    requires NodeAgrees(j, n1) && NodeAgrees(j, n2)
    ensures n1 == n2
  {
    assert n1.loads == n2.loads by {
      forall i | 0 <= i < |n1.loads| ensures n1.loads[i] == n2.loads[i] {
        var item := Field(j, "loads").items[i];
        assert EncodeVector(n1.loads[i].force) == EncodeVector(n2.loads[i].force);
        assert EncodeVector(n1.loads[i].moment) == EncodeVector(n2.loads[i].moment);
      }
    }
    assert EncodeVector(n1.position) == EncodeVector(n2.position);
  }

  /** At most one beam agrees with a given item. */
  lemma BeamAgreementIsUnique(j: Json, b1: Beam, b2: Beam)
    requires BeamAgrees(j, b1) && BeamAgrees(j, b2)
    ensures b1 == b2
  {
  }

  /** The records of an accepted document, in document order. */
  datatype Document = Document(nodes: seq<Node>, beams: seq<Beam>)

  /**
   `StructureSchema.safeParse`: the parsed document when the schema accepts,
   nothing otherwise. Each parsed record agrees with its item, field by field.
   Every parsed node has a UUID id; every parsed beam has UUID ids and a
   strictly positive material, so one bad record anywhere rejects the whole
   document.
   */
  function SafeParse(j: Json): (r: Option<Document>)
    ensures r.Some? <==> IsStructureDocument(j)
    ensures r.Some? ==>
              && |r.value.nodes| == |Field(j, "nodes").items|
              && |r.value.beams| == |Field(j, "beams").items|
    ensures r.Some? ==> forall i | 0 <= i < |r.value.nodes| ::
              && IsUuid(r.value.nodes[i].id)
              && Field(Field(j, "nodes").items[i], "id") == JStr(r.value.nodes[i].id)
    ensures r.Some? ==> forall i | 0 <= i < |r.value.beams| ::
              && IsUuid(r.value.beams[i].id)
              && IsUuid(r.value.beams[i].startNodeId)
              && IsUuid(r.value.beams[i].endNodeId)
              && PositiveMaterial(r.value.beams[i].material)
              && Field(Field(j, "beams").items[i], "id") == JStr(r.value.beams[i].id)
    ensures r.Some? ==> forall i | 0 <= i < |r.value.nodes| ::
              NodeAgrees(Field(j, "nodes").items[i], r.value.nodes[i])
    ensures r.Some? ==> forall i | 0 <= i < |r.value.beams| ::
              BeamAgrees(Field(j, "beams").items[i], r.value.beams[i])
  {
    if IsStructureDocument(j) then
      var ns := Field(j, "nodes").items;
      var bs := Field(j, "beams").items;
      DecodedNodesAgree(ns);
      DecodedBeamsAgree(bs);
      Some(Document(
        seq(|ns|, i requires 0 <= i < |ns| => DecodeNode(ns[i])),
        seq(|bs|, i requires 0 <= i < |bs| => DecodeBeam(bs[i]))))
    else
      None
  }

  // How the schema treats the JSON form of the model's own records.

  /** The vector schema accepts exactly the JSON forms of vectors. */
  lemma Vector3SchemaIsExact(j: Json)
    ensures IsVector3(j) <==> exists v :: j == EncodeVector(v)
  {
    if IsVector3(j) {
      assert j == EncodeVector(DecodeVector(j));
    }
  }

  lemma {:induction false} LoadsRoundTrip(ls: seq<Load>)
    ensures IsLoadList(EncodeLoads(ls))
    ensures seq(|ls|, i requires 0 <= i < |ls| => DecodeLoad(EncodeLoads(ls).items[i])) == ls
  {
    var js := EncodeLoads(ls).items;
    forall i | 0 <= i < |ls| ensures IsLoadRecord(js[i]) && DecodeLoad(js[i]) == ls[i] {
      assert js[i] == EncodeLoad(ls[i]);
    }
  }

  /**
   A node's JSON form passes the node schema exactly when its id is a UUID, and
   parses back to the same node.
   */
  lemma {:induction false} NodeRecordRoundTrip(n: Node)
    ensures IsNodeRecord(EncodeNode(n)) <==> IsUuid(n.id)
    ensures IsNodeRecord(EncodeNode(n)) ==> DecodeNode(EncodeNode(n)) == n
  {
    var j := EncodeNode(n);
    LoadsRoundTrip(n.loads);
    assert Field(j, "loads") == EncodeLoads(n.loads);
    assert Field(j, "id") == JStr(n.id);
    assert Field(j, "position") == EncodeVector(n.position);
    assert Field(j, "constraints") == EncodeConstraints(n.constraints);
  }

  /**
   A beam's JSON form passes the beam schema exactly when its three ids are
   UUIDs and its material is strictly positive, and parses back to the same beam.
   */
  lemma {:induction false} BeamRecordRoundTrip(b: Beam)
    ensures IsBeamRecord(EncodeBeam(b)) <==>
              IsUuid(b.id) && IsUuid(b.startNodeId) && IsUuid(b.endNodeId) && PositiveMaterial(b.material)
    ensures IsBeamRecord(EncodeBeam(b)) ==> DecodeBeam(EncodeBeam(b)) == b
  {
    var j := EncodeBeam(b);
    assert Field(j, "id") == JStr(b.id);
    assert Field(j, "startNodeId") == JStr(b.startNodeId);
    assert Field(j, "endNodeId") == JStr(b.endNodeId);
    assert Field(j, "material") == EncodeMaterial(b.material);
  }

  /**
   An `[id, record]` pair is an array, never a record object: a node or beam
   list holding one is rejected, and with it the document.
   */
  lemma PairIsNoRecord(doc: Json, i: nat)
    requires doc.JObj?
    requires Field(doc, "nodes").JArr? && i < |Field(doc, "nodes").items|
    requires Field(doc, "nodes").items[i].JArr?
    ensures !IsStructureDocument(doc)
  {
    assert !IsNodeRecord(Field(doc, "nodes").items[i]);
  }

  // The schema is purely per-record.

  const SampleNodeId: string := "123e4567-e89b-12d3-a456-426614174000"
  const SampleMissingId: string := "00000000-0000-4000-8000-000000000000"

  const SampleNode: Node := Node(SampleNodeId, ZeroVector, Unconstrained, [])

  /** Two nodes with the same id, and a beam from that id to an id no node has. */
  const SampleDocument: Json := JObj(map[
    "nodes" := JArr([EncodeNode(SampleNode), EncodeNode(SampleNode)]),
    "beams" := JArr([EncodeBeam(Beam(SampleMissingId, SampleNodeId, SampleMissingId, DefaultMaterial))])])

  lemma SampleIdsAreUuids()
    ensures IsUuid(SampleNodeId) && IsUuid(SampleMissingId)
    ensures !IsUuid("") && !IsUuid(SampleNodeId[..35] + "g")
  {
    assert (SampleNodeId[..35] + "g")[35] == 'g';
  }

  /**
   Duplicate ids and beam endpoints that name no listed node are not
   rejected: the schema has no rule that relates two records.
   */
  lemma DanglingAndDuplicateIdsAccepted()
    ensures IsStructureDocument(SampleDocument)
    ensures var nodes := Field(SampleDocument, "nodes").items;
            && |nodes| == 2 && nodes[0] == nodes[1]
            && Field(nodes[0], "id") == JStr(SampleNodeId)
            && SampleMissingId != SampleNodeId
  {
    SampleIdsAreUuids();
    NodeRecordRoundTrip(SampleNode);
    BeamRecordRoundTrip(Beam(SampleMissingId, SampleNodeId, SampleMissingId, DefaultMaterial));
    assert SampleMissingId[0] != SampleNodeId[0];
  }
}
